=== FILE: README.md ===
# ExtractFiles, modelled in Dafny

This project models the decision logic of the ExtractFiles build task
(`Tasks/ExtractFiles/extractfilestask.ts`). The task resolves newline-separated
glob patterns to archive files, classifies each archive by its name, and extracts
it into a destination folder with tar, unzip or 7-Zip. On Windows, compressed
tarballs go through a staging folder.

Everything is a pure function over immutable values:

- The file system is a `map<Path, Kind>` (`FileSystems`). `Kind` is a regular file,
  a directory, or something else.
- A thrown `FailTaskError`, or a throwing `statSync`, becomes a `Results.Result`
  failure or a `Progress.failure`. Both carry a `Host.TaskError`.
- Each library call the task makes becomes a function field of `Host.Environment`:
  - `find` is `tl.find`;
  - `glob` is `tl.match`, and its flag is minimatch's `nocase`;
  - `list` is `tl.ls`;
  - `exec` is `execSync`, returning an exit code and the file system the tool leaves.
- Extraction returns the file system it leaves plus the actions it performed, in
  order. An action is a tool invocation (a `Tools.Tool` with its argument list),
  a `mkdirP` or an `rmRF`.

Modules, leaf first:

- `Strings`: `indexOf`, the backward scan, `lastIndexOf`, `endsWith`, `toLowerCase`.
- `Paths`: the platform, `makeAbsolute`, the base name.
- `FileSystems`, `Tools`, `Host`: the collaborators.
- `Patterns`: `parsePattern`.
- `Archives`: `isZip` and `isTar`.
- `Resolve`: `findFiles`.
- `Extract`: `extractFiles` and the staging protocol.
- `Driver`: `doWork`.

Details of the code that the model keeps:

- The extra Windows test is `tar.z` with no leading dot (line 173). So `footar.z` is a
  tar on Windows (`Archives.DotlessTarZ`).
- The directory part of a split pattern keeps its trailing separator before it is
  joined onto the root (line 129). So `a/b/*.zip` searches `join(root, "a/b/")`.
- A literal pattern that names a directory, or something that is not a file, fails
  inside the `try` at lines 58-72. The `catch` rewraps that failure as "can not be
  accessed". So every refusal of a literal pattern is `ArchiveNotAccessible` with a
  cause.
- When the second 7-Zip run of the staging protocol fails, the error names the
  staged tar, not the archive (line 279).
- No staging folder is removed after a failure. The cleanup runs only on the
  success path (lines 280-282).

## Model

| member | source | states |
|---|---|---|
| Strings.IndexOf | Tasks/ExtractFiles/extractfilestask.ts:109-110 | the result is -1 exactly when the character is absent; otherwise it is a position holding the character, with no earlier occurrence |
| Strings.LastIndexBefore | Tasks/ExtractFiles/extractfilestask.ts:125-126 | the backward scan returns -1 exactly when no separator lies before the bound; otherwise it returns the last separator before the bound |
| Strings.LastIndexOf | Tasks/ExtractFiles/extractfilestask.ts:266 | `lastIndexOf` is -1 exactly when the character is absent; otherwise it is the position of the character with none after it |
| Paths.MakeAbsolute | Tasks/ExtractFiles/extractfilestask.ts:144-153 | an absolute path is returned unchanged; a relative one is joined onto the repository root |
| Paths.BaseName | Tasks/ExtractFiles/extractfilestask.ts:266 | the short file name is a separator-free suffix of the path, and it is preceded by a separator unless it is the whole path |
| FileSystems.MakeDirectory | Tasks/ExtractFiles/extractfilestask.ts:272 | after `mkdirP` the path is a directory and every other path is unchanged |
| FileSystems.RemoveTree | Tasks/ExtractFiles/extractfilestask.ts:282 | after `rmRF` the root and everything below it are gone, and everything else is unchanged |
| Tools.TarCall | Tasks/ExtractFiles/extractfilestask.ts:208-219 | the tar command line reads back as exactly this archive and this output directory |
| Tools.UnzipCall | Tasks/ExtractFiles/extractfilestask.ts:187-197 | the unzip command line reads back as exactly this archive and this output directory |
| Tools.SevenZipCall | Tasks/ExtractFiles/extractfilestask.ts:199-206 | the 7z command line (`x`, `-o<dest>`, file) reads back as exactly this archive and this output directory |
| Patterns.FirstWildIndex | Tasks/ExtractFiles/extractfilestask.ts:108-113 | -1 exactly when there is no `*` or `?`; otherwise the position of a wildcard with no wildcard before it, so an absent character never wins |
| Patterns.FirstWildIndexUnique | Tasks/ExtractFiles/extractfilestask.ts:108-113 | any wildcard position with no wildcard before it is the index found |
| Patterns.SplitUnique | Tasks/ExtractFiles/extractfilestask.ts:124-133 | at most one separator is the last one before the first wildcard |
| Patterns.ParsePattern | Tasks/ExtractFiles/extractfilestask.ts:105-142 | the result is a literal exactly when there is no wildcard, and then it is `makeAbsolute(pattern)`; with no separator before the wildcard, it is the repository root (not made absolute) with the whole pattern; otherwise it splits at the last separator before the wildcard |
| Patterns.WildcardShapes | Tasks/ExtractFiles/extractfilestask.ts:124-141 | every wildcard pattern yields a search, and it splits exactly when a separator precedes its first wildcard; the fallback never fails |
| Patterns.SplitReassembles | Tasks/ExtractFiles/extractfilestask.ts:124-133 | a split pattern parses into a search whose directory is `makeAbsolute` of the part up to and including the separator, and that part followed by the parsed search part is the pattern; the search part has no separator before its own first wildcard |
| Patterns.SplitExample | Tasks/ExtractFiles/extractfilestask.ts:124-133 | off Windows, `a/b/` + `*.zip` parses as a search of `*.zip` under `join(root, "a/b/")` |
| Patterns.FallbackExample | Tasks/ExtractFiles/extractfilestask.ts:135-141 | `*.tar.gz` parses as a search of the whole pattern under the repository root |
| Archives.IsZipByLastFour | Tasks/ExtractFiles/extractfilestask.ts:156-161 | `isZip` (`Archives.IsZip`) accepts a name exactly when its last four characters are `.zip`, `.jar`, `.war` or `.ear`, case-sensitively |
| Archives.IsTarPosix | Tasks/ExtractFiles/extractfilestask.ts:164-185 | off Windows `isTar` (`Archives.IsTar`) accepts a name exactly when it ends in one of the sixteen GNU tar suffixes |
| Archives.IsTarWindowsIsLowerPosix | Tasks/ExtractFiles/extractfilestask.ts:165-173 | on Windows a name is a tar exactly when its lower-cased form passes the non-Windows test or ends in `tar.z` |
| Archives.IsTarWindows | Tasks/ExtractFiles/extractfilestask.ts:164-185 | on Windows a name is a tar exactly when its lower-cased form ends in `tar.z` or in one of the lower-case suffixes; the `.tar.Z` and `.taZ` tests can never succeed there |
| Archives.IsTarWindowsIgnoresCase | Tasks/ExtractFiles/extractfilestask.ts:165 | on Windows two names that lower-case alike are both tars or both not |
| Archives.IsTarWindowsOfLowered | Tasks/ExtractFiles/extractfilestask.ts:165 | on Windows a name and its lower-cased form are classified alike |
| Archives.TarUpperZOnWindows | Tasks/ExtractFiles/extractfilestask.ts:172-173 | a `.tar.Z` name is caught on Windows by the `tar.z` test |
| Archives.TaUpperZOnWindows | Tasks/ExtractFiles/extractfilestask.ts:171-174 | a `.taZ` name is caught on Windows by the `.taz` test |
| Archives.PosixTarIsWindowsTar | Tasks/ExtractFiles/extractfilestask.ts:164-185 | every tar name off Windows is a tar name on Windows |
| Archives.UpperCaseTar | Tasks/ExtractFiles/extractfilestask.ts:165-168 | `X.TAR` is a tar on Windows only, and it fails the case-sensitive `.tar` test |
| Archives.DotlessTarZ | Tasks/ExtractFiles/extractfilestask.ts:173 | `footar.z` is a tar on Windows but not elsewhere, though it lacks `.tar.z` |
| Resolve.LiteralFile | Tasks/ExtractFiles/extractfilestask.ts:57-72 | a literal pattern succeeds exactly when it names a regular file, and then it yields that one path; otherwise it fails as "can not be accessed" for that file, with the cause (missing, directory) |
| Resolve.KeepFiles | Tasks/ExtractFiles/extractfilestask.ts:87-98 | the filter fails exactly when some normalised match cannot be stat'd, naming the first one; otherwise it keeps exactly the matches that are regular files and silently drops the rest |
| Resolve.KeepFilesKeepsOrder | Tasks/ExtractFiles/extractfilestask.ts:90-97 | a successful search keeps exactly the regular files among the normalised glob matches, in match order and with repeats; a file whose first occurrence in that list comes before another's also first occurs earlier among the normalised matches |
| Resolve.KeepFilesPairsInOrder | Tasks/ExtractFiles/extractfilestask.ts:90-97 | for any two kept files, in list order, some match normalises to the first and a later match to the second |
| Resolve.SearchFiles | Tasks/ExtractFiles/extractfilestask.ts:74-98 | a missing search directory fails, and so does one that is not a directory; for a directory, the search fails exactly when some normalised glob match of its listing cannot be stat'd, and a success holds exactly the regular files among those normalised matches |
| Resolve.PatternFiles | Tasks/ExtractFiles/extractfilestask.ts:52-99 | one pattern's contribution holds only regular files |
| Resolve.PatternFilesContents | Tasks/ExtractFiles/extractfilestask.ts:52-99 | by the parsed shape of the normalised pattern: a literal contributes exactly its file, and fails as "can not be accessed" for that file when it is not a regular file; a search fails on a missing directory or one that is not a directory, and otherwise contributes exactly the regular files among the normalised glob matches |
| Resolve.AddAll | Tasks/ExtractFiles/extractfilestask.ts:45-47 | adding to the set keeps it duplicate-free, keeps the earlier contents as a prefix, and its contents become the union |
| Resolve.AddAllKeepsOrder | Tasks/ExtractFiles/extractfilestask.ts:45-47 | the paths the set appends are exactly the new ones, in the order of their first occurrence in the added list, as `toArray` later returns them |
| Resolve.Collect | Tasks/ExtractFiles/extractfilestask.ts:49-100 | the pattern loop yields a duplicate-free list that extends the one collected so far with regular files only |
| Resolve.FindFiles | Tasks/ExtractFiles/extractfilestask.ts:36-103 | `findFiles` returns a duplicate-free list of regular files |
| Resolve.CollectIsUnion | Tasks/ExtractFiles/extractfilestask.ts:49-102 | a successful loop holds exactly the earlier paths plus every pattern's contribution |
| Resolve.FindFilesIsUnion | Tasks/ExtractFiles/extractfilestask.ts:36-103 | `findFiles` succeeds exactly when every pattern does, and then it holds exactly the union of their contributions |
| Resolve.CollectKeepsOrder | Tasks/ExtractFiles/extractfilestask.ts:49-100 | a successful pattern loop appends each path after every path first contributed by an earlier pattern, and paths first contributed by the same pattern in the order that pattern lists them |
| Resolve.FindFilesKeepsOrder | Tasks/ExtractFiles/extractfilestask.ts:36-103 | the list `toArray` returns (line 102) is in resolution order: a file first reached by an earlier pattern comes first, and files first reached by the same pattern keep that pattern's order |
| Resolve.FirstFailure | Tasks/ExtractFiles/extractfilestask.ts:49-100 | a failing loop reports the error of the first failing pattern, and every pattern before it succeeded |
| Resolve.OverlapCountedOnce | Tasks/ExtractFiles/extractfilestask.ts:45-47 | a file reached by several patterns appears exactly once |
| Extract.ChooseStrategy | Tasks/ExtractFiles/extractfilestask.ts:253-298 | off Windows, tar wins over zip, zip wins over 7z; on Windows, only a tar not ending in the original-case `.tar` is staged, and everything else is one 7z run |
| Extract.StagingNameShape | Tasks/ExtractFiles/extractfilestask.ts:265-268 | the staging folder name (`Extract.StagingName`, which `Extract.StagingFolder` passes through `path.normalize`) is `dest`, a separator, `_`, the archive's base name and `_`, directly under `dest` |
| Extract.StagedTarName | Tasks/ExtractFiles/extractfilestask.ts:276 | the decompressed tar (`Extract.StagedTar`) is the staging folder, a separator and the first entry `ls` lists there (`Extract.FirstEntry`), which is `"undefined"` when the listing is empty |
| Extract.Invoke | Tasks/ExtractFiles/extractfilestask.ts:221-235 | one tool run is one action; it fails exactly on a non-zero exit code, reporting that code and the file it names |
| Extract.Staged | Tasks/ExtractFiles/extractfilestask.ts:264-285 | the staging protocol runs at most two tools, and exactly two when it succeeds |
| Extract.StagedRefusesExisting | Tasks/ExtractFiles/extractfilestask.ts:269-285 | an existing staging folder fails the archive with no action at all |
| Extract.StagedSuccess | Tasks/ExtractFiles/extractfilestask.ts:269-282 | a success is exactly mkdir, 7z of the archive into the folder (together `Extract.Decompress`), 7z of its first entry into `dest`, then removal; the folder is then gone |
| Extract.StagedFailure | Tasks/ExtractFiles/extractfilestask.ts:269-285 | a failure never removes the folder; past the guard, it ends on a 7z run whose non-zero code is reported; a failing first run names the archive, and a failing second run names the staged tar (line 279) |
| Extract.ExtractFile | Tasks/ExtractFiles/extractfilestask.ts:244-298 | a missing archive or a directory fails with no tool run; otherwise the chosen single call (`Extract.DirectCall`: tar, unzip or 7z with the archive and `dest`) runs, or the staging protocol does; a success ran one tool, or two when staged |
| Extract.ExtractFiles | Tasks/ExtractFiles/extractfilestask.ts:240-300 | a successful run over n archives made between n and 2n tool runs in total, and no run makes more than 2n |
| Extract.ExtractFilesEachArchive | Tasks/ExtractFiles/extractfilestask.ts:244-299 | in a successful run, every archive, extracted from the file system the archives before it left, succeeds with one tool run, or two when it is staged |
| Extract.UpperCaseTarIsStaged | Tasks/ExtractFiles/extractfilestask.ts:253-257 | on Windows `X.TAR` takes the staging protocol |
| Extract.ExtractFilesStopsAtFailure | Tasks/ExtractFiles/extractfilestask.ts:240-300 | once an archive fails, later archives change nothing |
| Extract.ExtractFilesAppend | Tasks/ExtractFiles/extractfilestask.ts:244-299 | extracting a concatenation extracts the first list, then the second from the file system it left |
| Driver.PrepareDestination | Tasks/ExtractFiles/extractfilestask.ts:311-321 | the destination then exists; nothing outside it changes; without the clean flag nothing is removed; with the flag and an existing destination, only the empty folder remains |
| Driver.DoWork | Tasks/ExtractFiles/extractfilestask.ts:302-330 | a resolution failure is reported before any action; otherwise the actions are preparation then extraction, and the run succeeds exactly when extraction does |
| Driver.DoWorkSucceeds | Tasks/ExtractFiles/extractfilestask.ts:302-330 | a successful run had every pattern resolve, and for n resolved archives it ran between n and 2n tools in total |
| Driver.DoWorkEachArchive | Tasks/ExtractFiles/extractfilestask.ts:302-330 | in a successful run, each resolved archive, extracted after the destination is prepared and the archives before it are done, succeeds with one tool run, or two when it is staged |

## Left out

- Reading the inputs, environment and OS type (lines 8-16) is not modelled. The patterns, destination, clean flag, repository root and `win` are parameters. The `trim` and `normalize` of the destination are assumed already applied.
- Looking up executables (`getSevenZipLocation`, `tl.which`, and their lazy caches at lines 19-34, 189-191 and 210-212) is not modelled. A tool is the enum `Tar | Unzip | SevenZip`.
- Process execution is the `exec` oracle. Its exit code and resulting file system depend only on the file system and the invocation. The captured stdout, stderr and spawn error, and the exact text of every message, are not modelled. An error is a `TaskError` constructor with its path and, for a tool, its exit code.
- `tl.find` and `tl.match` are uninterpreted (minimatch with `matchBase`, plus `nocase` on Windows). So is `tl.ls`; when it returns nothing, the entry name is JavaScript's `"undefined"`.
- FileSystems.FileSystem: paths are looked up by their exact spelling. `tl.stats` and `tl.exist` treat equivalent spellings as one path: a trailing separator, or a different letter case on Windows. The model treats them as distinct keys. So a split directory such as `join(root, "a/b/")` (line 129) is found only if the map holds that exact string.
- `path.normalize`, `path.join` and `path.isAbsolute` are uninterpreted. `path.sep` is `\` on Windows and `/` elsewhere.
- `toLowerCase` folds ASCII letters only. Unicode case mapping is not modelled.
- `tl.stats` throws on a missing path, so the `!stats` tests at lines 78 and 247 never fire. The run fails either way. The model reports such a failure as `SearchDirectoryMissing` or `ArchiveMissing`.
- `mkdirP` is modelled as adding the one folder. Creating missing ancestors is not modelled. Failures of `mkdirP` and `rmRF` are not modelled either: both always succeed here.
- Logging (`console.log`, `tl.debug`, `_writeError`) is left out. So is the `setResult` call, beyond the `Succeeded | Failed` outcome.

=== FILE: archives.dfy ===
/** `isZip` and `isTar`: classifying an archive by the suffix of its name. */
module Archives {
  import opened Strings

  /** The suffixes `isZip` accepts; all four are four characters long. */
  const ZipSuffixes: set<String> := {".zip", ".jar", ".war", ".ear"}

  /** The GNU tar suffixes `isTar` lists, each with its compression recognised by tar itself. */
  const GnuTarSuffixes: set<String> :=
    {".tar", ".tar.gz", ".tgz", ".taz", ".tar.Z", ".taZ", ".tar.bz2", ".tz2", ".tbz2", ".tbz",
     ".tar.lz", ".tar.lzma", ".tlz", ".tar.lzo", ".tar.xz", ".txz"}

  /** The listed suffixes that can still match a lower-cased name. */
  const LowerCaseTarSuffixes: set<String> := GnuTarSuffixes - {".tar.Z", ".taZ"}

  /** `isZip`: case-sensitive on every platform. */
  predicate IsZip(file: String) {
    || EndsWith(file, ".zip")
    || EndsWith(file, ".jar")
    || EndsWith(file, ".war")
    || EndsWith(file, ".ear")
  }

  /** `isTar`, in the order the TypeScript tests the suffixes. On Windows the name is lower-cased
      first, and the extra test for `tar.z` has no leading dot. */
  predicate IsTar(win: bool, file: String) {
    var name := if win then ToLower(file) else file;
    || EndsWith(name, ".tar")
    || EndsWith(name, ".tar.gz")
    || EndsWith(name, ".tgz")
    || EndsWith(name, ".taz")
    || EndsWith(name, ".tar.Z")
    || (win && EndsWith(name, "tar.z"))
    || EndsWith(name, ".taZ")
    || EndsWith(name, ".tar.bz2")
    || EndsWith(name, ".tz2")
    || EndsWith(name, ".tbz2")
    || EndsWith(name, ".tbz")
    || EndsWith(name, ".tar.lz")
    || EndsWith(name, ".tar.lzma")
    || EndsWith(name, ".tlz")
    || EndsWith(name, ".tar.lzo")
    || EndsWith(name, ".tar.xz")
    || EndsWith(name, ".txz")
  }

  /** A zip name is one whose last four characters are one of the zip suffixes. */
  lemma IsZipByLastFour(file: String)
    ensures IsZip(file) <==> |file| >= 4 && file[|file| - 4..] in ZipSuffixes
  {
  }

  /** Off Windows, `isTar` is exact-suffix membership in the GNU tar list. */
  lemma IsTarPosix(file: String)
    ensures IsTar(false, file) <==> exists s :: s in GnuTarSuffixes && EndsWith(file, s)
  {
  }

  /** A lower-cased name never ends in a suffix holding an upper-case letter. */
  lemma LowerMissesUpperSuffix(file: String, s: String)
    requires |s| > 0 && 'A' <= s[|s| - 1] <= 'Z'
    ensures !EndsWith(ToLower(file), s)
  {
    if |s| <= |file| {
      LowerHasNoUpper(file, |file| - 1);
      assert ToLower(file)[|file| - |s|..][|s| - 1] == ToLower(file)[|file| - 1];
    }
  }

  /** On Windows, `isTar` is the non-Windows test applied to the lower-cased name, plus the
      dotless `tar.z`. */
  lemma IsTarWindowsIsLowerPosix(file: String)
    ensures IsTar(true, file) <==> IsTar(false, ToLower(file)) || EndsWith(ToLower(file), "tar.z")
  {
  }

  /** On Windows, `isTar` tests the lower-cased name against the lower-case suffixes and against
      the dotless `tar.z`; the `.tar.Z` and `.taZ` tests can never succeed there. */
  lemma IsTarWindows(file: String)
    ensures IsTar(true, file) <==>
              || EndsWith(ToLower(file), "tar.z")
              || exists s :: s in LowerCaseTarSuffixes && EndsWith(ToLower(file), s)
    ensures !EndsWith(ToLower(file), ".tar.Z") && !EndsWith(ToLower(file), ".taZ")
  {
    IsTarWindowsSuffixes(file);
    LowerMissesUpperSuffix(file, ".tar.Z");
    LowerMissesUpperSuffix(file, ".taZ");
  }

  lemma IsTarWindowsSuffixes(file: String)
    ensures IsTar(true, file) <==>
              || EndsWith(ToLower(file), "tar.z")
              || exists s :: s in LowerCaseTarSuffixes && EndsWith(ToLower(file), s)
  {
    var name := ToLower(file);
    IsTarWindowsIsLowerPosix(file);
    IsTarPosix(name);
    LowerMissesUpperSuffix(file, ".tar.Z");
    LowerMissesUpperSuffix(file, ".taZ");
    if s :| s in GnuTarSuffixes && EndsWith(name, s) {
      assert s in LowerCaseTarSuffixes;
    }
  }

  /** On Windows the case of a name does not matter: two names that lower-case alike are both
      tars or both not. */
  lemma IsTarWindowsIgnoresCase(a: String, b: String)
    requires ToLower(a) == ToLower(b)
    ensures IsTar(true, a) == IsTar(true, b)
  {
  }

  /** In particular, on Windows a name and its lower-cased form are classified alike. */
  lemma IsTarWindowsOfLowered(file: String)
    ensures IsTar(true, file) == IsTar(true, ToLower(file))
  {
    LowerIdempotent(file);
    IsTarWindowsIgnoresCase(file, ToLower(file));
  }

  /** A suffix free of upper-case letters is kept by lower-casing. */
  lemma LowerKeepsLowerSuffix(file: String, s: String)
    requires EndsWith(file, s)
    requires forall i :: 0 <= i < |s| ==> !('A' <= s[i] <= 'Z')
    ensures EndsWith(ToLower(file), s)
  {
    var d := |file| - |s|;
    assert forall i :: 0 <= i < |s| ==> ToLower(file)[d + i] == s[i];
  }

  lemma LowerCaseSuffixHasNoUpper(s: String, i: int)
    requires s in LowerCaseTarSuffixes && 0 <= i < |s|
    ensures !('A' <= s[i] <= 'Z')
  {
  }

  /** A `.tar.Z` name is caught on Windows by the dotless `tar.z` test. */
  lemma TarUpperZOnWindows(file: String)
    requires EndsWith(file, ".tar.Z")
    ensures EndsWith(ToLower(file), "tar.z")
  {
    var n := |file|;
    var name := ToLower(file);
    assert file[n - 5] == 't' && file[n - 4] == 'a' && file[n - 3] == 'r';
    assert file[n - 2] == '.' && file[n - 1] == 'Z';
    assert name[n - 5..] == [name[n - 5], name[n - 4], name[n - 3], name[n - 2], name[n - 1]];
  }

  /** A `.taZ` name is caught on Windows by the `.taz` test. */
  lemma TaUpperZOnWindows(file: String)
    requires EndsWith(file, ".taZ")
    ensures EndsWith(ToLower(file), ".taz")
  {
    var n := |file|;
    var name := ToLower(file);
    assert file[n - 4] == '.' && file[n - 3] == 't' && file[n - 2] == 'a' && file[n - 1] == 'Z';
    assert name[n - 4..] == [name[n - 4], name[n - 3], name[n - 2], name[n - 1]];
  }

  /** Every name that is a tar off Windows is a tar on Windows too. */
  lemma PosixTarIsWindowsTar(file: String)
    requires IsTar(false, file)
    ensures IsTar(true, file)
  {
    IsTarPosix(file);
    IsTarWindowsSuffixes(file);
    var s :| s in GnuTarSuffixes && EndsWith(file, s);
    if s == ".tar.Z" || s == ".taZ" {
      if s == ".tar.Z" {
        TarUpperZOnWindows(file);
      } else {
        TaUpperZOnWindows(file);
        assert ".taz" in LowerCaseTarSuffixes;
      }
    } else {
      forall i | 0 <= i < |s| ensures !('A' <= s[i] <= 'Z') {
        LowerCaseSuffixHasNoUpper(s, i);
      }
      LowerKeepsLowerSuffix(file, s);
    }
  }

  /** A name does not end in a suffix whose last two characters differ from its own. */
  lemma LastTwoRule(file: String, s: String)
    requires |file| >= 2 && |s| >= 2
    requires file[|file| - 2] != s[|s| - 2] || file[|file| - 1] != s[|s| - 1]
    ensures !EndsWith(file, s)
  {
  }

  /** Upper case is a tar on Windows only, and fails the case-sensitive `.tar` test. */
  lemma UpperCaseTar()
    ensures IsTar(true, "X.TAR")
    ensures !IsTar(false, "X.TAR")
    ensures !EndsWith("X.TAR", ".tar")
  {
    var f := "X.TAR";
    var name := ToLower(f);
    assert name[1..] == [name[1], name[2], name[3], name[4]];
    assert name[1..] == ".tar";
    LastTwoRule(f, ".tar");
    LastTwoRule(f, ".tar.gz");
    LastTwoRule(f, ".tgz");
    LastTwoRule(f, ".taz");
    LastTwoRule(f, ".tar.Z");
    LastTwoRule(f, ".taZ");
    LastTwoRule(f, ".tar.bz2");
    LastTwoRule(f, ".tz2");
    LastTwoRule(f, ".tbz2");
    LastTwoRule(f, ".tbz");
    LastTwoRule(f, ".tar.lz");
    LastTwoRule(f, ".tar.lzma");
    LastTwoRule(f, ".tlz");
    LastTwoRule(f, ".tar.lzo");
    LastTwoRule(f, ".tar.xz");
    LastTwoRule(f, ".txz");
  }

  /** The dotless `tar.z` test accepts names that are not tar names at all. */
  lemma DotlessTarZ()
    ensures IsTar(true, "footar.z")
    ensures !IsTar(false, "footar.z")
    ensures !EndsWith("footar.z", ".tar.z")
  {
    var f := "footar.z";
    var name := ToLower(f);
    assert name[3..] == [name[3], name[4], name[5], name[6], name[7]];
    assert name[3..] == "tar.z";
    LastTwoRule(f, ".tar");
    LastTwoRule(f, ".tar.gz");
    LastTwoRule(f, ".tgz");
    LastTwoRule(f, ".taz");
    LastTwoRule(f, ".tar.Z");
    LastTwoRule(f, ".taZ");
    LastTwoRule(f, ".tar.bz2");
    LastTwoRule(f, ".tz2");
    LastTwoRule(f, ".tbz2");
    LastTwoRule(f, ".tbz");
    LastTwoRule(f, ".tar.lz");
    LastTwoRule(f, ".tar.lzma");
    LastTwoRule(f, ".tlz");
    LastTwoRule(f, ".tar.lzo");
    LastTwoRule(f, ".tar.xz");
    LastTwoRule(f, ".txz");
    assert f[2..][0] == 'o';
  }
}

=== FILE: driver.dfy ===
/** `doWork`: resolve the archives, prepare the destination, extract, and report one outcome. */
module Driver {
  import opened Strings
  import opened Results
  import opened Paths
  import opened FileSystems
  import opened Host
  import opened Resolve
  import opened Extract

  /** The inputs of ExtractFiles: the patterns, the destination folder, the clean flag and the
      `build.sourcesDirectory` variable. */
  datatype Inputs = Inputs(patterns: seq<String>, destination: Path, cleanDestination: bool, repoRoot: Path)

  /** What `setResult` reports. */
  datatype TaskResult = Succeeded | Failed(error: TaskError)

  /** The reported result together with the side effects ExtractFiles performed. */
  datatype Run = Run(result: TaskResult, fs: FileSystem, actions: seq<Action>)

  /** The destination folder as extraction finds it, and the actions that made it so. */
  datatype Prepared = Prepared(fs: FileSystem, actions: seq<Action>)

  /** Optionally wipe the destination, then create it if it does not exist. Only the destination
      is touched; without the clean flag nothing that existed is lost. */
  function PrepareDestination(sep: char, dest: Path, clean: bool, fs: FileSystem): (r: Prepared)
    ensures dest in r.fs
    ensures forall p :: !Within(p, dest, sep) ==> (p in r.fs <==> p in fs)
    ensures forall p :: p in r.fs && !Within(p, dest, sep) ==> r.fs[p] == fs[p]
    ensures !clean ==> forall p :: p in fs ==> p in r.fs && r.fs[p] == fs[p]
    ensures !clean ==> RemoveDir(dest) !in r.actions
    ensures clean && dest in fs ==> IsDirectory(r.fs, dest) && forall p :: p in r.fs && Within(p, dest, sep) ==> p == dest
  {
    var cleaned := if clean && dest in fs then Prepared(RemoveTree(fs, dest, sep), [RemoveDir(dest)]) else Prepared(fs, []);
    if dest !in cleaned.fs then Prepared(MakeDirectory(cleaned.fs, dest), cleaned.actions + [MakeDir(dest)])
    else cleaned
  }

  /** `doWork`: any failure, wherever raised, becomes the single `Failed` outcome. A failure to
      resolve the patterns happens before anything is touched. */
  function DoWork(env: Environment, inputs: Inputs, fs: FileSystem): (r: Run)
    ensures var found := FindFiles(env, inputs.repoRoot, fs, inputs.patterns);
            found.Failure? ==> r == Run(Failed(found.error), fs, [])
    ensures var found := FindFiles(env, inputs.repoRoot, fs, inputs.patterns);
            var prepared := PrepareDestination(env.platform.Sep(), inputs.destination, inputs.cleanDestination, fs);
            found.Success? ==>
              var extracted := ExtractFiles(env, prepared.fs, found.value, inputs.destination);
              && r.actions == prepared.actions + extracted.actions
              && r.fs == extracted.fs
              && (r.result.Succeeded? <==> extracted.failure.None?)
              && (r.result.Failed? ==> r.result.error == extracted.failure.value)
  {
    match FindFiles(env, inputs.repoRoot, fs, inputs.patterns)
    case Failure(e) => Run(Failed(e), fs, [])
    case Success(files) =>
      var prepared := PrepareDestination(env.platform.Sep(), inputs.destination, inputs.cleanDestination, fs);
      var extracted := ExtractFiles(env, prepared.fs, files, inputs.destination);
      var result := if extracted.failure.Some? then Failed(extracted.failure.value) else Succeeded;
      Run(result, extracted.fs, prepared.actions + extracted.actions)
  }

  /** A successful run had every pattern resolve; for n resolved archives it ran between n and 2n
      tools in total. */
  lemma DoWorkSucceeds(env: Environment, inputs: Inputs, fs: FileSystem)
    requires DoWork(env, inputs, fs).result.Succeeded?
    ensures var found := FindFiles(env, inputs.repoRoot, fs, inputs.patterns);
            && found.Success?
            && (forall k :: 0 <= k < |inputs.patterns| ==>
                  PatternFiles(env, inputs.repoRoot, fs, inputs.patterns[k]).Success?)
            && |found.value| <= ExecCount(DoWork(env, inputs, fs).actions) <= 2 * |found.value|
  {
    var found := FindFiles(env, inputs.repoRoot, fs, inputs.patterns);
    FindFilesIsUnion(env, inputs.repoRoot, fs, inputs.patterns);
    var prepared := PrepareDestination(env.platform.Sep(), inputs.destination, inputs.cleanDestination, fs);
    var extracted := ExtractFiles(env, prepared.fs, found.value, inputs.destination);
    ExecCountAppend(prepared.actions, extracted.actions);
    assert ExecCount(prepared.actions) == 0 by {
      var cleaned := if inputs.cleanDestination && inputs.destination in fs then [RemoveDir(inputs.destination)] else [];
      ExecCountAppend(cleaned, [MakeDir(inputs.destination)]);
    }
  }

  /** In a successful run, each resolved archive, extracted from the file system the preparation
      and the archives before it left, succeeds with one tool run, or two when it is staged. */
  lemma DoWorkEachArchive(env: Environment, inputs: Inputs, fs: FileSystem, k: int)
    ensures var found := FindFiles(env, inputs.repoRoot, fs, inputs.patterns);
            DoWork(env, inputs, fs).result.Succeeded? && found.Success? && 0 <= k < |found.value| ==>
              var prepared := PrepareDestination(env.platform.Sep(), inputs.destination, inputs.cleanDestination, fs);
              var before := ExtractFiles(env, prepared.fs, found.value[..k], inputs.destination);
              var step := ExtractFile(env, before.fs, found.value[k], inputs.destination);
              && step.failure.None?
              && ExecCount(step.actions) == (if ChooseStrategy(env.platform.win, found.value[k]) == SevenZipStaged then 2 else 1)
  {
    var found := FindFiles(env, inputs.repoRoot, fs, inputs.patterns);
    if DoWork(env, inputs, fs).result.Succeeded? && found.Success? && 0 <= k < |found.value| {
      var prepared := PrepareDestination(env.platform.Sep(), inputs.destination, inputs.cleanDestination, fs);
      ExtractFilesEachArchive(env, prepared.fs, found.value, inputs.destination, k);
    }
  }
}

=== FILE: extract.dfy ===
/** `extractFiles`: choosing the tool sequence for each archive and running it, the
    staging-folder protocol for compressed tars on Windows included. */
module Extract {
  import opened Strings
  import opened Results
  import opened Paths
  import opened FileSystems
  import opened Tools
  import opened Host
  import opened Archives

  /** How one archive is extracted. */
  datatype Strategy =
    | NativeTar        // tar, off Windows
    | NativeUnzip      // unzip, off Windows
    | SevenZipDirect   // one 7z run straight into the destination
    | SevenZipStaged   // Windows compressed tar: decompress into a staging folder, then untar

  /** The branch structure of `extractFiles` for one file. */
  function ChooseStrategy(win: bool, file: Path): (r: Strategy)
    ensures r == NativeTar <==> !win && IsTar(false, file)
    ensures r == NativeUnzip <==> !win && !IsTar(false, file) && IsZip(file)
    ensures r == SevenZipStaged <==> win && IsTar(true, file) && !EndsWith(file, ".tar")
    ensures r == SevenZipDirect <==>
              || (win && (!IsTar(true, file) || EndsWith(file, ".tar")))
              || (!win && !IsTar(false, file) && !IsZip(file))
  {
    if win then
      if IsTar(true, file) then
        if EndsWith(file, ".tar") then SevenZipDirect else SevenZipStaged
      else SevenZipDirect
    else if IsTar(false, file) then NativeTar
    else if IsZip(file) then NativeUnzip
    else SevenZipDirect
  }

  /** The one tool run of every strategy but the staged one. */
  function DirectCall(strategy: Strategy, file: Path, dest: Path): Invocation {
    match strategy
    case NativeTar => TarCall(file, dest)
    case NativeUnzip => UnzipCall(file, dest)
    case _ => SevenZipCall(file, dest)
  }

  /** `dest + sep + '_' + base + '_'` splits back into its parts. */
  lemma StagingShape(dest: Path, sep: char, base: String)
    requires sep != '_' && sep !in base
    ensures var r := dest + [sep] + (['_'] + base + ['_']);
            && |r| >= |dest| + 3 && r[..|dest| + 2] == dest + [sep, '_'] && r[|r| - 1] == '_'
            && sep !in r[|dest| + 1..]
            && r[|dest| + 2..|r| - 1] == base
  {
    var name := ['_'] + base + ['_'];
    assert name == ['_'] + (base + ['_']);
    var r := dest + [sep] + name;
    assert r[|dest| + 1..] == name;
    assert r[|dest| + 2..|r| - 1] == base;
    assert r[..|dest| + 2] == dest + [sep, '_'];
  }

  /** The staging folder's name before normalisation: `dest + sep + '_' + base + '_'`. */
  function StagingName(platform: Platform, dest: Path, file: Path): Path {
    dest + [platform.Sep()] + (['_'] + BaseName(platform.Sep(), file) + ['_'])
  }

  /** The staging folder sits directly under `dest` and is named after the archive's base name. */
  lemma StagingNameShape(platform: Platform, dest: Path, file: Path)
    ensures var r := StagingName(platform, dest, file);
            && |r| >= |dest| + 3 && r[..|dest| + 2] == dest + [platform.Sep(), '_'] && r[|r| - 1] == '_'
            && platform.Sep() !in r[|dest| + 1..]
            && r[|dest| + 2..|r| - 1] == BaseName(platform.Sep(), file)
  {
    StagingShape(dest, platform.Sep(), BaseName(platform.Sep(), file));
  }

  /** Where extraction stands after some steps: the file system, the side effects so far and the
      error that stopped it, if any. */
  datatype Progress = Progress(fs: FileSystem, actions: seq<Action>, failure: Option<TaskError>)

  /** One tool run checked by `handleExecResult`: any exit code but 0 is a failure naming `file`. */
  function Invoke(env: Environment, fs: FileSystem, inv: Invocation, file: Path): (r: Progress)
    ensures r.actions == [Exec(inv)]
    ensures r.fs == env.exec(fs, inv).fs
    ensures r.failure.Some? <==> env.exec(fs, inv).code != 0
    ensures r.failure.Some? ==> r.failure.value == ExtractionFailed(file, env.exec(fs, inv).code)
  {
    var result := env.exec(fs, inv);
    Progress(result.fs, [Exec(inv)], if result.code != 0 then Some(ExtractionFailed(file, result.code)) else None)
  }

  /** The name of the first entry `ls` reports in the staging folder; JavaScript renders the
      missing entry of an empty listing as "undefined". */
  function FirstEntry(entries: seq<String>): String {
    if |entries| > 0 then entries[0] else "undefined"
  }

  /** The staging folder for `file`: `path.normalize` of its name. */
  function StagingFolder(platform: Platform, dest: Path, file: Path): Path {
    platform.normalize(StagingName(platform, dest, file))
  }

  /** Step 0 and 1 of the staging protocol: create the folder and decompress into it. */
  function Decompress(env: Environment, fs: FileSystem, file: Path, staging: Path): Progress {
    Invoke(env, MakeDirectory(fs, staging), SevenZipCall(file, staging), file)
  }

  /** The decompressed tar: the staging folder's first entry after step 1. */
  function StagedTar(env: Environment, fs: FileSystem, file: Path, staging: Path): Path {
    staging + [env.platform.Sep()] + FirstEntry(env.list(Decompress(env, fs, file, staging).fs, staging))
  }

  /** The staged tar is the staging folder, a separator, then the first entry `ls` lists in it
      after decompression, or "undefined" when the listing is empty. */
  lemma StagedTarName(env: Environment, fs: FileSystem, file: Path, staging: Path)
    ensures var entries := env.list(Decompress(env, fs, file, staging).fs, staging);
            var t := StagedTar(env, fs, file, staging);
            && |t| > |staging|
            && t[..|staging| + 1] == staging + [env.platform.Sep()]
            && (|entries| > 0 ==> t[|staging| + 1..] == entries[0])
            && (|entries| == 0 ==> t[|staging| + 1..] == "undefined")
  {
  }

  /** The staging protocol with `staging` as its folder: refuse an existing folder; otherwise
      create it, decompress into it, extract its first entry into `dest`, and remove it. A
      failing run leaves the folder behind and stops. */
  function Staged(env: Environment, fs: FileSystem, file: Path, dest: Path, staging: Path): (r: Progress)
    ensures r.failure.None? ==> ExecCount(r.actions) == 2
    ensures ExecCount(r.actions) <= 2
  {
    if staging in fs then
      Progress(fs, [], Some(StagingFolderExists(file, staging)))
    else
      var decompress := Decompress(env, fs, file, staging);
      var prefix := [MakeDir(staging)] + decompress.actions;
      ExecCountAppend([MakeDir(staging)], decompress.actions);
      if decompress.failure.Some? then
        Progress(decompress.fs, prefix, decompress.failure)
      else
        var stagedTar := StagedTar(env, fs, file, staging);
        var expand := Invoke(env, decompress.fs, SevenZipCall(stagedTar, dest), stagedTar);
        ExecCountAppend(prefix, expand.actions);
        if expand.failure.Some? then
          Progress(expand.fs, prefix + expand.actions, expand.failure)
        else
          ExecCountAppend(prefix + expand.actions, [RemoveDir(staging)]);
          Progress(RemoveTree(expand.fs, staging, env.platform.Sep()), prefix + expand.actions + [RemoveDir(staging)], None)
  }

  /** A staging folder that already exists fails the archive before any tool runs. */
  lemma StagedRefusesExisting(env: Environment, fs: FileSystem, file: Path, dest: Path, staging: Path)
    requires staging in fs
    ensures Staged(env, fs, file, dest, staging) == Progress(fs, [], Some(StagingFolderExists(file, staging)))
  {
  }

  /** A successful staged extraction is exactly: create the folder, 7z the archive into it,
      7z its first entry into `dest`, remove the folder; afterwards the folder is gone. */
  lemma StagedSuccess(env: Environment, fs: FileSystem, file: Path, dest: Path, staging: Path)
    requires Staged(env, fs, file, dest, staging).failure.None?
    ensures staging !in fs
    ensures Staged(env, fs, file, dest, staging).actions ==
              [MakeDir(staging), Exec(SevenZipCall(file, staging)),
               Exec(SevenZipCall(StagedTar(env, fs, file, staging), dest)), RemoveDir(staging)]
    ensures staging !in Staged(env, fs, file, dest, staging).fs
  {
  }

  /** A failing staged extraction never reaches the removal: either it was refused up front, or
      its last action is the 7z run whose non-zero exit code is reported. */
  lemma StagedFailure(env: Environment, fs: FileSystem, file: Path, dest: Path, staging: Path)
    requires Staged(env, fs, file, dest, staging).failure.Some?
    ensures RemoveDir(staging) !in Staged(env, fs, file, dest, staging).actions
    ensures staging !in fs ==>
              var r := Staged(env, fs, file, dest, staging);
              && 2 <= |r.actions| <= 3
              && r.actions[..2] == [MakeDir(staging), Exec(SevenZipCall(file, staging))]
              && r.actions[|r.actions| - 1].Exec?
              && r.failure.value.ExtractionFailed?
              && r.failure.value.code != 0
              && (|r.actions| == 2 ==> r.failure.value.file == file)
              && (|r.actions| == 3 ==> r.failure.value.file == StagedTar(env, fs, file, staging))
  {
  }

  /** One iteration of the `extractFiles` loop: the file must exist and not be a directory,
      then its strategy's tools run. */
  function ExtractFile(env: Environment, fs: FileSystem, file: Path, dest: Path): (r: Progress)
    ensures file !in fs ==> r == Progress(fs, [], Some(ArchiveMissing(file)))
    ensures IsDirectory(fs, file) ==> r == Progress(fs, [], Some(ArchiveIsDirectory(file)))
    ensures file in fs && !IsDirectory(fs, file) && ChooseStrategy(env.platform.win, file) != SevenZipStaged ==>
              r == Invoke(env, fs, DirectCall(ChooseStrategy(env.platform.win, file), file, dest), file)
    ensures file in fs && !IsDirectory(fs, file) && ChooseStrategy(env.platform.win, file) == SevenZipStaged ==>
              r == Staged(env, fs, file, dest, StagingFolder(env.platform, dest, file))
    ensures r.failure.None? ==> file in fs && !IsDirectory(fs, file)
    ensures r.failure.None? ==>
              ExecCount(r.actions) == (if ChooseStrategy(env.platform.win, file) == SevenZipStaged then 2 else 1)
    ensures ExecCount(r.actions) <= 2
  {
    if file !in fs then Progress(fs, [], Some(ArchiveMissing(file)))
    else if fs[file] == Directory then Progress(fs, [], Some(ArchiveIsDirectory(file)))
    else
      var strategy := ChooseStrategy(env.platform.win, file);
      if strategy == SevenZipStaged then Staged(env, fs, file, dest, StagingFolder(env.platform, dest, file))
      else
        var r := Invoke(env, fs, DirectCall(strategy, file, dest), file);
        assert r.actions == [Exec(DirectCall(strategy, file, dest))];
        r
  }

  /** Runs `second` after `first` unless `first` already failed. */
  function Then(first: Progress, second: Progress): Progress {
    if first.failure.Some? then first
    else Progress(second.fs, first.actions + second.actions, second.failure)
  }

  /** `extractFiles`: archives in order, the first failure ending the run. */
  function ExtractFiles(env: Environment, fs: FileSystem, files: seq<Path>, dest: Path): (r: Progress)
    ensures r.failure.None? ==> |files| <= ExecCount(r.actions) <= 2 * |files|
    ensures ExecCount(r.actions) <= 2 * |files|
    decreases |files|
  {
    if |files| == 0 then Progress(fs, [], None)
    else
      var first := ExtractFile(env, fs, files[0], dest);
      if first.failure.Some? then first
      else
        var rest := ExtractFiles(env, first.fs, files[1..], dest);
        ExecCountAppend(first.actions, rest.actions);
        Then(first, rest)
  }

  /** A name like `X.TAR` is a tar on Windows but fails the case-sensitive `.tar` test, so it
      takes the staging protocol. */
  lemma UpperCaseTarIsStaged()
    ensures ChooseStrategy(true, "X.TAR") == SevenZipStaged
  {
    UpperCaseTar();
  }

  /** In a successful run, every archive, extracted from the file system the archives before it
      left, succeeds with one tool run, or two when it is staged. */
  lemma ExtractFilesEachArchive(env: Environment, fs: FileSystem, files: seq<Path>, dest: Path, k: int)
    requires ExtractFiles(env, fs, files, dest).failure.None?
    requires 0 <= k < |files|
    ensures var before := ExtractFiles(env, fs, files[..k], dest);
            var step := ExtractFile(env, before.fs, files[k], dest);
            && before.failure.None?
            && step.failure.None?
            && ExecCount(step.actions) == (if ChooseStrategy(env.platform.win, files[k]) == SevenZipStaged then 2 else 1)
  {
    var before := ExtractFiles(env, fs, files[..k], dest);
    assert files[..k] + files[k..] == files;
    if before.failure.Some? {
      ExtractFilesStopsAtFailure(env, fs, files[..k], files[k..], dest);
      assert false;
    }
    ExtractFilesAppend(env, fs, files[..k], files[k..], dest);
    assert files[k..][0] == files[k];
  }

  /** Once an archive fails, the archives after it are never touched. */
  lemma {:induction false} ExtractFilesStopsAtFailure(env: Environment, fs: FileSystem, files: seq<Path>, more: seq<Path>, dest: Path)
    requires ExtractFiles(env, fs, files, dest).failure.Some?
    ensures ExtractFiles(env, fs, files + more, dest) == ExtractFiles(env, fs, files, dest)
    decreases |files|
  {
    assert |files| > 0;
    assert (files + more)[0] == files[0];
    assert (files + more)[1..] == files[1..] + more;
    var first := ExtractFile(env, fs, files[0], dest);
    if first.failure.None? {
      var rest := ExtractFiles(env, first.fs, files[1..], dest);
      assert ExtractFiles(env, fs, files, dest) == Then(first, rest);
      ExtractFilesStopsAtFailure(env, first.fs, files[1..], more, dest);
      assert ExtractFiles(env, fs, files + more, dest) == Then(first, rest);
    }
  }

  /** Regrouping the action lists, as a separate step so the proof below stays small. */
  lemma ConcatAssociates<T>(a: seq<T>, b: seq<T>, c: seq<T>)
    ensures a + (b + c) == (a + b) + c
  {
  }

  /** Extracting `files + more` is extracting `files`, then `more` from the file system it left. */
  lemma {:induction false} ExtractFilesAppend(env: Environment, fs: FileSystem, files: seq<Path>, more: seq<Path>, dest: Path)
    requires ExtractFiles(env, fs, files, dest).failure.None?
    ensures var done := ExtractFiles(env, fs, files, dest);
            ExtractFiles(env, fs, files + more, dest) == Then(done, ExtractFiles(env, done.fs, more, dest))
    decreases |files|
  {
    if |files| == 0 {
      assert files + more == more;
    } else {
      assert (files + more)[0] == files[0];
      assert (files + more)[1..] == files[1..] + more;
      var first := ExtractFile(env, fs, files[0], dest);
      var rest := ExtractFiles(env, first.fs, files[1..], dest);
      var tail := ExtractFiles(env, rest.fs, more, dest);
      assert ExtractFiles(env, fs, files, dest) == Then(first, rest);
      assert ExtractFiles(env, fs, files + more, dest) == Then(first, ExtractFiles(env, first.fs, files[1..] + more, dest));
      ExtractFilesAppend(env, first.fs, files[1..], more, dest);
      ConcatAssociates(first.actions, rest.actions, tail.actions);
    }
  }
}

=== FILE: filesystems.dfy ===
/** The file system as ExtractFiles observes it: what lives at each path. */
module FileSystems {
  import opened Paths

  /** What `stats` reports: a regular file, a directory, or something else (a socket, a device). */
  datatype Kind = File | Directory | Special

  /** A path is absent exactly when it is not a key. */
  type FileSystem = map<Path, Kind>

  predicate IsFile(fs: FileSystem, p: Path) {
    p in fs && fs[p] == File
  }

  predicate IsDirectory(fs: FileSystem, p: Path) {
    p in fs && fs[p] == Directory
  }

  /** `p` is `root` itself or lies somewhere below it. */
  predicate Within(p: Path, root: Path, sep: char) {
    p == root || (|root| < |p| && p[..|root|] == root && p[|root|] == sep)
  }

  /** `mkdirP(p)` on a path that does not exist yet. */
  function MakeDirectory(fs: FileSystem, p: Path): (r: FileSystem)
    ensures IsDirectory(r, p)
    ensures forall q :: q != p ==> (q in r <==> q in fs)
    ensures forall q :: q in fs && q != p ==> r[q] == fs[q]
  {
    fs[p := Directory]
  }

  /** `rmRF(root)`: the root and everything below it disappear, nothing else changes. */
  function RemoveTree(fs: FileSystem, root: Path, sep: char): (r: FileSystem)
    ensures root !in r
    ensures forall p :: p in r <==> p in fs && !Within(p, root, sep)
    ensures forall p :: p in r ==> r[p] == fs[p]
  {
    map p | p in fs && !Within(p, root, sep) :: fs[p]
  }
}

=== FILE: host.dfy ===
/** What ExtractFiles cannot see into: the platform, the library calls it makes, and the errors it raises. */
module Host {
  import opened Strings
  import opened Paths
  import opened FileSystems
  import opened Tools

  /** The outcome of `execSync`: the exit code and the file system the tool leaves behind. */
  datatype ExecResult = ExecResult(code: int, fs: FileSystem)

  /** A side effect ExtractFiles performs, in the order it performs them. */
  datatype Action =
    | Exec(invocation: Invocation)
    | MakeDir(path: Path)
    | RemoveDir(path: Path)

  /** The collaborators, as functions of the state they observe:
      `find` is `tl.find` (recursive listing), `glob` is `tl.match` (its flag is `nocase`),
      `list` is `tl.ls` (a folder's entry names) and `exec` runs a tool. */
  datatype Environment = Environment(
    platform: Platform,
    find: (FileSystem, Path) -> seq<Path>,
    glob: (seq<Path>, String, bool) -> seq<Path>,
    list: (FileSystem, Path) -> seq<String>,
    exec: (FileSystem, Invocation) -> ExecResult)

  /** Why a literal archive path was refused. */
  datatype AccessCause = DirectoryGiven | NotAFile | StatFailed

  /** Every way ExtractFiles fails; the TypeScript raises each as a thrown error. */
  datatype TaskError =
    | ArchiveNotAccessible(file: Path, cause: AccessCause)
    | SearchDirectoryMissing(directory: Path)
    | SearchDirectoryNotADirectory(directory: Path)
    | MatchNotAccessible(path: Path)
    | ArchiveMissing(file: Path)
    | ArchiveIsDirectory(file: Path)
    | StagingFolderExists(file: Path, folder: Path)
    | ExtractionFailed(file: Path, code: int)

  /** Counts the tool runs among `actions`. */
  function ExecCount(actions: seq<Action>): nat {
    if |actions| == 0 then 0
    else (if actions[0].Exec? then 1 else 0) + ExecCount(actions[1..])
  }

  lemma {:induction false} ExecCountAppend(a: seq<Action>, b: seq<Action>)
    ensures ExecCount(a + b) == ExecCount(a) + ExecCount(b)
  {
    if |a| == 0 {
      assert a + b == b;
    } else {
      assert (a + b)[1..] == a[1..] + b;
      ExecCountAppend(a[1..], b);
    }
  }
}

=== FILE: paths.dfy ===
/** The parts of Node's `path` module ExtractFiles uses, kept abstract where the model does not need them. */
module Paths {
  import opened Strings

  type Path = String

  /** The host platform. `win` is the `osType()` test; `isAbsolute`, `join` and `normalize`
      stand for Node's `path` functions and are left uninterpreted. */
  datatype Platform = Platform(
    win: bool,
    isAbsolute: Path -> bool,
    join: (Path, Path) -> Path,
    normalize: Path -> Path)
  {
    /** `path.sep`. */
    function Sep(): char {
      if win then '\\' else '/'
    }
  }

  /** `makeAbsolute`: a relative path is resolved against the repository root. */
  function MakeAbsolute(platform: Platform, repoRoot: Path, p: Path): (r: Path)
    ensures platform.isAbsolute(p) ==> r == p
    ensures !platform.isAbsolute(p) ==> r == platform.join(repoRoot, p)
  {
    if platform.isAbsolute(p) then p else platform.join(repoRoot, p)
  }

  /** `file.substring(file.lastIndexOf(sep) + 1)`: the longest separator-free suffix. */
  function BaseName(sep: char, file: Path): (r: String)
    ensures sep !in r
    ensures EndsWith(file, r)
    ensures |r| < |file| ==> file[|file| - |r| - 1] == sep
  {
    file[LastIndexOf(file, sep) + 1..]
  }
}

=== FILE: patterns.dfy ===
/** `parsePattern`: splitting a normalised pattern into a literal file or a (directory, search) pair. */
module Patterns {
  import opened Strings
  import opened Paths

  predicate IsWildcard(c: char) {
    c == '*' || c == '?'
  }

  predicate HasWildcard(p: String) {
    '*' in p || '?' in p
  }

  /** The result of `parsePattern`. The TypeScript returns a record with three nullable fields;
      here the two shapes it ever takes are the two constructors, so exactly one is populated. */
  datatype ParsedPattern =
    | Literal(file: Path)
    | Search(directory: Path, search: String)

  /** The index of the first `*` or `?`, or -1: the smaller of the two `indexOf` results,
      where a missing character (-1) never wins. */
  function FirstWildIndex(p: String): (r: int)
    ensures r == -1 <==> !HasWildcard(p)
    ensures r != -1 ==> 0 <= r < |p| && IsWildcard(p[r]) && !HasWildcard(p[..r])
  {
    var star := IndexOf(p, '*');
    var question := IndexOf(p, '?');
    if question > -1 && (star == -1 || question < star) then question else star
  }

  /** Any wildcard position with none before it is the first one. */
  lemma FirstWildIndexUnique(p: String, j: int)
    requires 0 <= j < |p| && IsWildcard(p[j]) && !HasWildcard(p[..j])
    ensures FirstWildIndex(p) == j
  {
    assert p[j] in p;
  }

  /** `i` is the separator the backward scan stops at: the last one before the first wildcard. */
  predicate SplitsAt(p: String, sep: char, i: int) {
    var w := FirstWildIndex(p);
    0 <= i < w && p[i] == sep && sep !in p[i + 1..w]
  }

  /** At most one position splits a pattern. */
  lemma SplitUnique(p: String, sep: char, i: int, j: int)
    requires SplitsAt(p, sep, i) && SplitsAt(p, sep, j)
    ensures i == j
  {
  }

  /** A separator found by the backward scan from the first wildcard is the one split point. */
  lemma ScanSplits(p: String, sep: char, i: int)
    requires FirstWildIndex(p) != -1 && i == LastIndexBefore(p, sep, FirstWildIndex(p)) && i != -1
    ensures sep in p[..FirstWildIndex(p)]
    ensures forall j :: SplitsAt(p, sep, j) <==> j == i
  {
    var w := FirstWildIndex(p);
    assert p[..w][i] == sep;
    assert SplitsAt(p, sep, i);
    forall j | SplitsAt(p, sep, j) ensures j == i {
      SplitUnique(p, sep, i, j);
    }
  }

  /** `parsePattern(p)` with the repository root and platform made explicit. */
  function ParsePattern(platform: Platform, repoRoot: Path, p: String): (r: ParsedPattern)
    ensures r.Literal? <==> !HasWildcard(p)
    ensures r.Literal? ==> r.file == MakeAbsolute(platform, repoRoot, p)
    ensures r.Search? && platform.Sep() !in p[..FirstWildIndex(p)] ==> r == Search(repoRoot, p)
    ensures forall i :: SplitsAt(p, platform.Sep(), i) ==>
              r == Search(MakeAbsolute(platform, repoRoot, p[..i + 1]), p[i + 1..])
  {
    var w := FirstWildIndex(p);
    var sep := platform.Sep();
    if w == -1 then Literal(MakeAbsolute(platform, repoRoot, p))
    else
      var i := LastIndexBefore(p, sep, w);
      if i == -1 then
        Search(repoRoot, p)
      else
        ScanSplits(p, sep, i);
        Search(MakeAbsolute(platform, repoRoot, p[..i + 1]), p[i + 1..])
  }

  /** A wildcard pattern either splits at one separator or falls back to the repository root;
      the fallback never fails. */
  lemma WildcardShapes(platform: Platform, repoRoot: Path, p: String)
    requires HasWildcard(p)
    ensures ParsePattern(platform, repoRoot, p).Search?
    ensures (exists i :: SplitsAt(p, platform.Sep(), i))
        <==> platform.Sep() in p[..FirstWildIndex(p)]
  {
    var w := FirstWildIndex(p);
    var sep := platform.Sep();
    var i := LastIndexBefore(p, sep, w);
    if sep in p[..w] {
      assert SplitsAt(p, sep, i);
    } else {
      forall j | SplitsAt(p, sep, j) ensures false {
      }
    }
  }

  /** A split pattern parses into a directory part (before `makeAbsolute`, separator kept) and
      a search part that together spell the pattern; the search part has no separator before
      its own first wildcard, which is the pattern's first wildcard shifted. */
  lemma SplitReassembles(platform: Platform, repoRoot: Path, p: String, i: int)
    requires SplitsAt(p, platform.Sep(), i)
    ensures var r := ParsePattern(platform, repoRoot, p);
            && r.Search?
            && r.directory == MakeAbsolute(platform, repoRoot, p[..i + 1])
            && p[..i + 1] + r.search == p
    ensures EndsWith(p[..i + 1], [platform.Sep()])
    ensures FirstWildIndex(p[i + 1..]) == FirstWildIndex(p) - (i + 1)
    ensures platform.Sep() !in p[i + 1..][..FirstWildIndex(p[i + 1..])]
  {
    assert p[..i + 1] + p[i + 1..] == p;
    SearchPartWildcard(p, platform.Sep(), i);
  }

  /** The search part of a split keeps the pattern's first wildcard, shifted, with no separator
      before it. */
  lemma SearchPartWildcard(p: String, sep: char, i: int)
    requires SplitsAt(p, sep, i)
    ensures FirstWildIndex(p[i + 1..]) == FirstWildIndex(p) - (i + 1)
    ensures sep !in p[i + 1..][..FirstWildIndex(p[i + 1..])]
  {
    var w := FirstWildIndex(p);
    var s := p[i + 1..];
    var k := w - (i + 1);
    assert s[k] == p[w];
    assert s[..k] == p[..w][i + 1..];
    NoWildcardInSuffix(p[..w], i + 1);
    FirstWildIndexUnique(s, k);
    assert s[..k] == p[i + 1..w];
  }

  lemma NoWildcardInSuffix(t: String, a: nat)
    requires a <= |t| && !HasWildcard(t)
    ensures !HasWildcard(t[a..])
  {
  }

  /** Off Windows, the directory part `a/b/` of the pattern `a/b/` + `*.zip` keeps its trailing
      separator and is resolved against the root; the search part is `*.zip`. */
  lemma SplitExample(platform: Platform, repoRoot: Path)
    requires !platform.win && !platform.isAbsolute("a/b/")
    ensures ParsePattern(platform, repoRoot, "a/b/*.zip") == Search(platform.join(repoRoot, "a/b/"), "*.zip")
  {
    var p := "a/b/*.zip";
    ExampleSplitsAtThree();
    var r := ParsePattern(platform, repoRoot, p);
    assert platform.Sep() == '/';
    assert r == Search(MakeAbsolute(platform, repoRoot, p[..4]), p[4..]);
    assert p[..4] == "a/b/" && p[4..] == "*.zip";
  }

  lemma ExampleSplitsAtThree()
    ensures SplitsAt("a/b/*.zip", '/', 3)
  {
    var p := "a/b/*.zip";
    assert p[..4] == "a/b/";
    FirstWildIndexUnique(p, 4);
    assert p[4..4] == [];
  }

  /** `*.tar.gz` has no directory part: the search runs from the repository root with the whole
      pattern, whatever the platform. */
  lemma FallbackExample(platform: Platform, repoRoot: Path)
    ensures ParsePattern(platform, repoRoot, "*.tar.gz") == Search(repoRoot, "*.tar.gz")
  {
    var p := "*.tar.gz";
    assert FirstWildIndex(p) == 0 by {
      FirstWildIndexUnique(p, 0);
    }
  }
}

=== FILE: resolve.dfy ===
/** `findFiles`: resolving every pattern against the file system into a duplicate-free list. */
module Resolve {
  import opened Strings
  import opened Results
  import opened Paths
  import opened FileSystems
  import opened Host
  import opened Patterns

  predicate NoDuplicates<T(==)>(s: seq<T>) {
    forall i, j :: 0 <= i < j < |s| ==> s[i] != s[j]
  }

  /** The literal branch: `stats(file)` must report a regular file; every refusal, including the
      ones raised inside the `try`, surfaces as the "can not be accessed" failure. */
  function LiteralFile(fs: FileSystem, file: Path): (r: Result<seq<Path>, TaskError>)
    ensures r.Success? <==> IsFile(fs, file)
    ensures r.Success? ==> r.value == [file]
    ensures r.Failure? ==> r.error.ArchiveNotAccessible? && r.error.file == file
    ensures r.Failure? ==> (r.error.cause == StatFailed <==> file !in fs)
    ensures r.Failure? ==> (r.error.cause == DirectoryGiven <==> IsDirectory(fs, file))
  {
    if file !in fs then Failure(ArchiveNotAccessible(file, StatFailed))
    else match fs[file]
      case File => Success([file])
      case Directory => Failure(ArchiveNotAccessible(file, DirectoryGiven))
      case Special => Failure(ArchiveNotAccessible(file, NotAFile))
  }

  /** The loop over `tl.match` results: each match is normalised and stat'd; regular files are
      kept in order, anything else that exists is dropped, and a match that cannot be stat'd
      fails the whole search. */
  function KeepFiles(platform: Platform, fs: FileSystem, matched: seq<Path>): (r: Result<seq<Path>, TaskError>)
    ensures r.Failure? <==> exists k :: 0 <= k < |matched| && platform.normalize(matched[k]) !in fs
    ensures r.Failure? ==>
              exists k :: && 0 <= k < |matched|
                          && r.error == MatchNotAccessible(platform.normalize(matched[k]))
                          && platform.normalize(matched[k]) !in fs
                          && forall j :: 0 <= j < k ==> platform.normalize(matched[j]) in fs
    ensures r.Success? ==> forall p :: p in r.value ==> IsFile(fs, p)
    ensures r.Success? ==> forall k :: 0 <= k < |matched| && IsFile(fs, platform.normalize(matched[k])) ==>
              platform.normalize(matched[k]) in r.value
    ensures r.Success? ==> forall p :: p in r.value ==>
              exists k :: 0 <= k < |matched| && platform.normalize(matched[k]) == p
  {
    if |matched| == 0 then Success([])
    else
      var p := platform.normalize(matched[0]);
      if p !in fs then Failure(MatchNotAccessible(p))
      else
        var rest := KeepFiles(platform, fs, matched[1..]);
        if rest.Failure? then
          assert forall k :: 0 <= k < |matched[1..]| ==> matched[1..][k] == matched[k + 1];
          rest
        else if fs[p] == File then Success([p] + rest.value)
        else rest
  }

  /** The wildcard branch: the search directory must exist and be a directory; the recursive
      listing under it is filtered by the glob matcher (case-insensitive on Windows). */
  function SearchFiles(env: Environment, fs: FileSystem, directory: Path, search: String): (r: Result<seq<Path>, TaskError>)
    ensures directory !in fs ==> r == Failure(SearchDirectoryMissing(directory))
    ensures directory in fs && !IsDirectory(fs, directory) ==> r == Failure(SearchDirectoryNotADirectory(directory))
    ensures IsDirectory(fs, directory) ==>
              var matched := env.glob(env.find(fs, directory), search, env.platform.win);
              r.Failure? <==> exists k :: 0 <= k < |matched| && env.platform.normalize(matched[k]) !in fs
    ensures r.Success? ==> IsDirectory(fs, directory)
    ensures r.Success? ==>
              var matched := env.glob(env.find(fs, directory), search, env.platform.win);
              forall p :: p in r.value <==>
                IsFile(fs, p) && exists k :: 0 <= k < |matched| && env.platform.normalize(matched[k]) == p
  {
    if directory !in fs then Failure(SearchDirectoryMissing(directory))
    else if fs[directory] != Directory then Failure(SearchDirectoryNotADirectory(directory))
    else
      var candidates := env.find(fs, directory);
      var matched := env.glob(candidates, search, env.platform.win);
      KeepFiles(env.platform, fs, matched)
  }

  /** What one pattern contributes: it is normalised, parsed, then resolved by its shape. */
  function PatternFiles(env: Environment, repoRoot: Path, fs: FileSystem, pattern: String): (r: Result<seq<Path>, TaskError>)
    ensures r.Success? ==> forall p :: p in r.value ==> IsFile(fs, p)
  {
    match ParsePattern(env.platform, repoRoot, env.platform.normalize(pattern))
    case Literal(file) => LiteralFile(fs, file)
    case Search(directory, search) => SearchFiles(env, fs, directory, search)
  }

  /** What one pattern contributes, by its shape: a literal contributes exactly its file or fails
      as "can not be accessed"; a search fails on a bad directory, and otherwise contributes
      exactly the regular files among the normalised glob matches. */
  lemma PatternFilesContents(env: Environment, repoRoot: Path, fs: FileSystem, pattern: String)
    ensures var parsed := ParsePattern(env.platform, repoRoot, env.platform.normalize(pattern));
            var r := PatternFiles(env, repoRoot, fs, pattern);
            parsed.Literal? ==>
              && (r.Success? <==> IsFile(fs, parsed.file))
              && (r.Success? ==> r.value == [parsed.file])
              && (r.Failure? ==> r.error.ArchiveNotAccessible? && r.error.file == parsed.file)
    ensures var parsed := ParsePattern(env.platform, repoRoot, env.platform.normalize(pattern));
            var r := PatternFiles(env, repoRoot, fs, pattern);
            parsed.Search? ==>
              && (parsed.directory !in fs ==> r == Failure(SearchDirectoryMissing(parsed.directory)))
              && (parsed.directory in fs && !IsDirectory(fs, parsed.directory) ==>
                    r == Failure(SearchDirectoryNotADirectory(parsed.directory)))
              && (r.Success? ==>
                    var matched := env.glob(env.find(fs, parsed.directory), parsed.search, env.platform.win);
                    && IsDirectory(fs, parsed.directory)
                    && forall p :: p in r.value <==>
                         IsFile(fs, p) && exists k :: 0 <= k < |matched| && env.platform.normalize(matched[k]) == p)
  {
  }

  /** Adding to the `collections/set`: a path already present is not added again, and the
      insertion order is kept. */
  function AddAll(acc: seq<Path>, ps: seq<Path>): (r: seq<Path>)
    requires NoDuplicates(acc)
    ensures NoDuplicates(r)
    ensures forall p :: p in r <==> p in acc || p in ps
    ensures |acc| <= |r| && r[..|acc|] == acc
    decreases |ps|
  {
    if |ps| == 0 then acc
    else AddAll(if ps[0] in acc then acc else acc + [ps[0]], ps[1..])
  }

  /** The pattern loop, from an already collected list; the first failing pattern stops it. */
  function Collect(env: Environment, repoRoot: Path, fs: FileSystem, patterns: seq<String>, acc: seq<Path>): (r: Result<seq<Path>, TaskError>)
    requires NoDuplicates(acc)
    ensures r.Success? ==> NoDuplicates(r.value) && |acc| <= |r.value| && r.value[..|acc|] == acc
    ensures r.Success? ==> forall p :: p in r.value ==> p in acc || IsFile(fs, p)
    decreases |patterns|
  {
    if |patterns| == 0 then Success(acc)
    else match PatternFiles(env, repoRoot, fs, patterns[0])
      case Failure(e) => Failure(e)
      case Success(ps) =>
        var r := Collect(env, repoRoot, fs, patterns[1..], AddAll(acc, ps));
        if r.Success? then
          assert r.value[..|acc|] == r.value[..|AddAll(acc, ps)|][..|acc|];
          r
        else r
  }

  /** `findFiles`: the duplicate-free list of regular files all patterns resolve to. */
  function FindFiles(env: Environment, repoRoot: Path, fs: FileSystem, patterns: seq<String>): (r: Result<seq<Path>, TaskError>)
    ensures r.Success? ==> NoDuplicates(r.value)
    ensures r.Success? ==> forall p :: p in r.value ==> IsFile(fs, p)
  {
    Collect(env, repoRoot, fs, patterns, [])
  }

  /** The collected list is exactly the union of every pattern's contribution. */
  lemma {:induction false} CollectIsUnion(env: Environment, repoRoot: Path, fs: FileSystem, patterns: seq<String>, acc: seq<Path>)
    requires NoDuplicates(acc)
    requires Collect(env, repoRoot, fs, patterns, acc).Success?
    ensures forall k :: 0 <= k < |patterns| ==> PatternFiles(env, repoRoot, fs, patterns[k]).Success?
    ensures forall p :: p in Collect(env, repoRoot, fs, patterns, acc).value <==>
              p in acc || exists k :: 0 <= k < |patterns| && p in PatternFiles(env, repoRoot, fs, patterns[k]).value
    decreases |patterns|
  {
    if |patterns| > 0 {
      var ps := PatternFiles(env, repoRoot, fs, patterns[0]).value;
      var acc' := AddAll(acc, ps);
      CollectIsUnion(env, repoRoot, fs, patterns[1..], acc');
      forall k | 1 <= k < |patterns|
        ensures PatternFiles(env, repoRoot, fs, patterns[k]) == PatternFiles(env, repoRoot, fs, patterns[1..][k - 1])
      {
      }
      forall p | p in Collect(env, repoRoot, fs, patterns, acc).value
        ensures p in acc || exists k :: 0 <= k < |patterns| && p in PatternFiles(env, repoRoot, fs, patterns[k]).value
      {
        if p !in acc' {
          var k :| 0 <= k < |patterns[1..]| && p in PatternFiles(env, repoRoot, fs, patterns[1..][k]).value;
          assert patterns[1..][k] == patterns[k + 1];
        } else if p !in acc {
          assert p in PatternFiles(env, repoRoot, fs, patterns[0]).value;
        }
      }
      forall p | p in acc || exists k :: 0 <= k < |patterns| && p in PatternFiles(env, repoRoot, fs, patterns[k]).value
        ensures p in Collect(env, repoRoot, fs, patterns, acc).value
      {
        if p !in acc {
          var k :| 0 <= k < |patterns| && p in PatternFiles(env, repoRoot, fs, patterns[k]).value;
          if k > 0 {
            assert patterns[1..][k - 1] == patterns[k];
          }
        }
      }
    }
  }

  /** `findFiles` succeeds exactly when every pattern does, and then holds each contributed
      path once and nothing else. */
  lemma FindFilesIsUnion(env: Environment, repoRoot: Path, fs: FileSystem, patterns: seq<String>)
    ensures FindFiles(env, repoRoot, fs, patterns).Success? <==>
              forall k :: 0 <= k < |patterns| ==> PatternFiles(env, repoRoot, fs, patterns[k]).Success?
    ensures FindFiles(env, repoRoot, fs, patterns).Success? ==>
              forall p :: p in FindFiles(env, repoRoot, fs, patterns).value <==>
                exists k :: 0 <= k < |patterns| && p in PatternFiles(env, repoRoot, fs, patterns[k]).value
  {
    if FindFiles(env, repoRoot, fs, patterns).Success? {
      CollectIsUnion(env, repoRoot, fs, patterns, []);
    } else {
      FirstFailure(env, repoRoot, fs, patterns, []);
    }
  }

  /** A failing run reports the error of the first failing pattern, every earlier one having
      succeeded. */
  lemma {:induction false} FirstFailure(env: Environment, repoRoot: Path, fs: FileSystem, patterns: seq<String>, acc: seq<Path>)
    requires NoDuplicates(acc)
    requires Collect(env, repoRoot, fs, patterns, acc).Failure?
    ensures exists k :: 0 <= k < |patterns| && FailsFirstAt(env, repoRoot, fs, patterns, k)
                && Collect(env, repoRoot, fs, patterns, acc).error == PatternFiles(env, repoRoot, fs, patterns[k]).error
    decreases |patterns|
  {
    if PatternFiles(env, repoRoot, fs, patterns[0]).Failure? {
      assert FailsFirstAt(env, repoRoot, fs, patterns, 0);
    } else {
      var ps := PatternFiles(env, repoRoot, fs, patterns[0]).value;
      FirstFailure(env, repoRoot, fs, patterns[1..], AddAll(acc, ps));
      var k :| 0 <= k < |patterns[1..]| && FailsFirstAt(env, repoRoot, fs, patterns[1..], k)
                && Collect(env, repoRoot, fs, patterns[1..], AddAll(acc, ps)).error
                   == PatternFiles(env, repoRoot, fs, patterns[1..][k]).error;
      assert patterns[1..][k] == patterns[k + 1];
      forall j | 0 <= j < k + 1 ensures PatternFiles(env, repoRoot, fs, patterns[j]).Success? {
        if j > 0 {
          assert patterns[1..][j - 1] == patterns[j];
        }
      }
      assert FailsFirstAt(env, repoRoot, fs, patterns, k + 1);
    }
  }

  /** Pattern `k` fails and every pattern before it succeeds. */
  predicate FailsFirstAt(env: Environment, repoRoot: Path, fs: FileSystem, patterns: seq<String>, k: int)
    requires 0 <= k < |patterns|
  {
    && PatternFiles(env, repoRoot, fs, patterns[k]).Failure?
    && forall j :: 0 <= j < k ==> PatternFiles(env, repoRoot, fs, patterns[j]).Success?
  }

  /** Two patterns that reach the same file contribute it once. */
  lemma OverlapCountedOnce(env: Environment, repoRoot: Path, fs: FileSystem, patterns: seq<String>, p: Path)
    requires FindFiles(env, repoRoot, fs, patterns).Success?
    requires p in FindFiles(env, repoRoot, fs, patterns).value
    ensures multiset(FindFiles(env, repoRoot, fs, patterns).value)[p] == 1
  {
    var files := FindFiles(env, repoRoot, fs, patterns).value;
    var i :| 0 <= i < |files| && files[i] == p;
    assert files == files[..i] + [p] + files[i + 1..];
    assert p !in files[..i] && p !in files[i + 1..];
  }

  /** The position of the first occurrence of `p` in `s`. */
  function FirstAt(s: seq<Path>, p: Path): (r: nat)
    requires p in s
    ensures r < |s| && s[r] == p && p !in s[..r]
    decreases |s|
  {
    if s[0] == p then 0
    else
      var r := 1 + FirstAt(s[1..], p);
      assert s[..r] == [s[0]] + s[1..][..r - 1];
      r
  }

  /** The paths `AddAll` appends are the new ones, in the order they first occur in `ps`. */
  lemma {:induction false} AddAllKeepsOrder(acc: seq<Path>, ps: seq<Path>)
    requires NoDuplicates(acc)
    ensures forall i :: |acc| <= i < |AddAll(acc, ps)| ==> AddAll(acc, ps)[i] in ps && AddAll(acc, ps)[i] !in acc
    ensures forall i, j :: |acc| <= i < j < |AddAll(acc, ps)| ==> FirstAt(ps, AddAll(acc, ps)[i]) < FirstAt(ps, AddAll(acc, ps)[j])
    decreases |ps|
  {
    var r := AddAll(acc, ps);
    forall i | |acc| <= i < |r| ensures r[i] in ps && r[i] !in acc {
      forall m | 0 <= m < |acc| ensures acc[m] != r[i] {
        assert acc[m] == r[..|acc|][m] == r[m];
      }
    }
    if |ps| > 0 {
      var acc1 := if ps[0] in acc then acc else acc + [ps[0]];
      assert r == AddAll(acc1, ps[1..]);
      AddAllKeepsOrder(acc1, ps[1..]);
      forall i | |acc1| <= i < |r| ensures r[i] != ps[0] && FirstAt(ps, r[i]) == 1 + FirstAt(ps[1..], r[i]) {
        assert ps[0] in acc1;
      }
      forall i, j | |acc| <= i < j < |r| ensures FirstAt(ps, r[i]) < FirstAt(ps, r[j]) {
        if i < |acc1| {
          assert r[i] == r[..|acc1|][i] == acc1[i] == ps[0];
        }
      }
    }
  }

  /** Some match normalises to `x` and a later one normalises to `y`. */
  predicate InOrder(platform: Platform, matched: seq<Path>, x: Path, y: Path) {
    exists a, b :: && 0 <= a < b < |matched|
                   && platform.normalize(matched[a]) == x
                   && platform.normalize(matched[b]) == y
  }

  lemma InOrderTail(platform: Platform, matched: seq<Path>, x: Path, y: Path)
    requires |matched| > 0 && InOrder(platform, matched[1..], x, y)
    ensures InOrder(platform, matched, x, y)
  {
    var a, b :| && 0 <= a < b < |matched[1..]|
                && platform.normalize(matched[1..][a]) == x
                && platform.normalize(matched[1..][b]) == y;
    assert matched[1..][a] == matched[a + 1] && matched[1..][b] == matched[b + 1];
  }

  lemma InOrderHead(platform: Platform, matched: seq<Path>, b: int, y: Path)
    requires 0 <= b < |matched| - 1 && platform.normalize(matched[1..][b]) == y
    ensures InOrder(platform, matched, platform.normalize(matched[0]), y)
  {
    assert matched[1..][b] == matched[b + 1];
  }

  /** The regular files `KeepFiles` keeps follow the order of the matches they come from: the
      list is the regular files among the normalised matches, so its first occurrences come in
      the order of their first occurrences among those matches. */
  lemma KeepFilesKeepsOrder(platform: Platform, fs: FileSystem, matched: seq<Path>)
    requires KeepFiles(platform, fs, matched).Success?
    ensures KeepFiles(platform, fs, matched).value == KeptFiles(fs, Normalized(platform, matched))
    ensures var r := KeepFiles(platform, fs, matched).value;
            var n := Normalized(platform, matched);
            forall x, y :: x in r && y in r && FirstAt(r, x) < FirstAt(r, y) ==> FirstAt(n, x) < FirstAt(n, y)
  {
    KeepFilesIsKeptFiles(platform, fs, matched);
    var n := Normalized(platform, matched);
    forall x, y | x in KeptFiles(fs, n) && y in KeptFiles(fs, n) && FirstAt(KeptFiles(fs, n), x) < FirstAt(KeptFiles(fs, n), y)
      ensures FirstAt(n, x) < FirstAt(n, y)
    {
      KeptFilesKeepsOrder(fs, n, x, y);
    }
  }

  /** Any two kept files, in list order, come from matches in the same order. */
  lemma {:induction false} KeepFilesPairsInOrder(platform: Platform, fs: FileSystem, matched: seq<Path>)
    requires KeepFiles(platform, fs, matched).Success?
    ensures var r := KeepFiles(platform, fs, matched).value;
            forall i, j :: 0 <= i < j < |r| ==> InOrder(platform, matched, r[i], r[j])
    decreases |matched|
  {
    if |matched| > 0 {
      var p := platform.normalize(matched[0]);
      var tail := matched[1..];
      var rest := KeepFiles(platform, fs, tail).value;
      KeepFilesPairsInOrder(platform, fs, tail);
      var r := KeepFiles(platform, fs, matched).value;
      if fs[p] == File {
        assert r == [p] + rest;
        forall i, j | 0 <= i < j < |r| ensures InOrder(platform, matched, r[i], r[j]) {
          if i > 0 {
            assert InOrder(platform, tail, rest[i - 1], rest[j - 1]);
            InOrderTail(platform, matched, r[i], r[j]);
          } else {
            assert rest[j - 1] in rest;
            var b :| 0 <= b < |tail| && platform.normalize(tail[b]) == rest[j - 1];
            InOrderHead(platform, matched, b, r[j]);
          }
        }
      } else {
        assert r == rest;
        forall i, j | 0 <= i < j < |r| ensures InOrder(platform, matched, r[i], r[j]) {
          InOrderTail(platform, matched, r[i], r[j]);
        }
      }
    }
  }

  /** The matches, each passed through `path.normalize`. */
  function Normalized(platform: Platform, matched: seq<Path>): (r: seq<Path>)
    ensures |r| == |matched|
    ensures forall k :: 0 <= k < |matched| ==> r[k] == platform.normalize(matched[k])
  {
    if |matched| == 0 then [] else [platform.normalize(matched[0])] + Normalized(platform, matched[1..])
  }

  /** The regular files of `s`, in order, repeats included. */
  function KeptFiles(fs: FileSystem, s: seq<Path>): (r: seq<Path>)
    ensures forall p :: p in r <==> p in s && IsFile(fs, p)
  {
    if |s| == 0 then []
    else if IsFile(fs, s[0]) then [s[0]] + KeptFiles(fs, s[1..])
    else KeptFiles(fs, s[1..])
  }

  /** A successful `KeepFiles` is exactly the regular files among the normalised matches, in match
      order. */
  lemma {:induction false} KeepFilesIsKeptFiles(platform: Platform, fs: FileSystem, matched: seq<Path>)
    requires KeepFiles(platform, fs, matched).Success?
    ensures KeepFiles(platform, fs, matched).value == KeptFiles(fs, Normalized(platform, matched))
    decreases |matched|
  {
    if |matched| > 0 {
      KeepFilesIsKeptFiles(platform, fs, matched[1..]);
      assert Normalized(platform, matched)[1..] == Normalized(platform, matched[1..]);
    }
  }

  /** Past a different head, the first occurrence moves by one. */
  lemma FirstAtCons(h: Path, s: seq<Path>, x: Path)
    requires x in s && x != h
    ensures FirstAt([h] + s, x) == 1 + FirstAt(s, x)
  {
    assert ([h] + s)[1..] == s;
  }

  /** Filtering keeps the order of first occurrences. */
  lemma {:induction false} KeptFilesKeepsOrder(fs: FileSystem, s: seq<Path>, x: Path, y: Path)
    requires x in KeptFiles(fs, s) && y in KeptFiles(fs, s)
    requires FirstAt(KeptFiles(fs, s), x) < FirstAt(KeptFiles(fs, s), y)
    ensures FirstAt(s, x) < FirstAt(s, y)
    decreases |s|
  {
    var h := s[0];
    var t := s[1..];
    assert s == [h] + t;
    var r := KeptFiles(fs, s);
    if IsFile(fs, h) {
      assert r == [h] + KeptFiles(fs, t);
      if x != h {
        assert y != h;
        FirstAtCons(h, KeptFiles(fs, t), x);
        FirstAtCons(h, KeptFiles(fs, t), y);
        KeptFilesKeepsOrder(fs, t, x, y);
        FirstAtCons(h, t, x);
        FirstAtCons(h, t, y);
      }
    } else {
      assert r == KeptFiles(fs, t);
      KeptFilesKeepsOrder(fs, t, x, y);
      FirstAtCons(h, t, x);
      FirstAtCons(h, t, y);
    }
  }

  /** `pattern` resolves and contributes `p`. */
  predicate Contributes(env: Environment, repoRoot: Path, fs: FileSystem, pattern: String, p: Path) {
    PatternFiles(env, repoRoot, fs, pattern).Success? && p in PatternFiles(env, repoRoot, fs, pattern).value
  }

  /** Some pattern of the list contributes `p`. */
  predicate Contributed(env: Environment, repoRoot: Path, fs: FileSystem, patterns: seq<String>, p: Path) {
    exists k :: 0 <= k < |patterns| && Contributes(env, repoRoot, fs, patterns[k], p)
  }

  /** The first pattern of the list that contributes `p`. */
  function FirstContributor(env: Environment, repoRoot: Path, fs: FileSystem, patterns: seq<String>, p: Path): (k: nat)
    requires Contributed(env, repoRoot, fs, patterns, p)
    ensures k < |patterns| && Contributes(env, repoRoot, fs, patterns[k], p)
    ensures forall j :: 0 <= j < k ==> !Contributes(env, repoRoot, fs, patterns[j], p)
  {
    FirstContributorFrom(env, repoRoot, fs, patterns, p, 0)
  }

  /** The linear search behind `FirstContributor`, from position `i` on. */
  function FirstContributorFrom(env: Environment, repoRoot: Path, fs: FileSystem, patterns: seq<String>, p: Path, i: nat): (k: nat)
    requires i <= |patterns|
    requires exists k :: i <= k < |patterns| && Contributes(env, repoRoot, fs, patterns[k], p)
    ensures i <= k < |patterns| && Contributes(env, repoRoot, fs, patterns[k], p)
    ensures forall j :: i <= j < k ==> !Contributes(env, repoRoot, fs, patterns[j], p)
    decreases |patterns| - i
  {
    if Contributes(env, repoRoot, fs, patterns[i], p) then i
    else FirstContributorFrom(env, repoRoot, fs, patterns, p, i + 1)
  }

  /** Whatever the list's head does not contribute is first contributed one pattern later than in
      the tail. */
  lemma FirstContributorShift(env: Environment, repoRoot: Path, fs: FileSystem, patterns: seq<String>, p: Path)
    requires |patterns| > 0 && !Contributes(env, repoRoot, fs, patterns[0], p)
    requires Contributed(env, repoRoot, fs, patterns[1..], p)
    ensures Contributed(env, repoRoot, fs, patterns, p)
    ensures FirstContributor(env, repoRoot, fs, patterns, p) == 1 + FirstContributor(env, repoRoot, fs, patterns[1..], p)
  {
    ContributedFromTail(env, repoRoot, fs, patterns, p);
    var k := FirstContributor(env, repoRoot, fs, patterns, p);
    var t := FirstContributor(env, repoRoot, fs, patterns[1..], p);
    assert patterns[1..][t] == patterns[t + 1];
  }

  /** `a` precedes `b` in resolution order: it is first contributed by an earlier pattern, or by the
      same pattern at an earlier position of that pattern's contribution. */
  predicate Earlier(env: Environment, repoRoot: Path, fs: FileSystem, patterns: seq<String>, a: Path, b: Path) {
    && Contributed(env, repoRoot, fs, patterns, a)
    && Contributed(env, repoRoot, fs, patterns, b)
    && var ka := FirstContributor(env, repoRoot, fs, patterns, a);
       var kb := FirstContributor(env, repoRoot, fs, patterns, b);
       || ka < kb
       || (ka == kb && FirstAt(PatternFiles(env, repoRoot, fs, patterns[ka]).value, a)
                       < FirstAt(PatternFiles(env, repoRoot, fs, patterns[ka]).value, b))
  }

  /** Dropping a first pattern that contributes neither path shifts the order by one pattern. */
  lemma EarlierShift(env: Environment, repoRoot: Path, fs: FileSystem, patterns: seq<String>, a: Path, b: Path)
    requires |patterns| > 0
    requires !Contributes(env, repoRoot, fs, patterns[0], a) && !Contributes(env, repoRoot, fs, patterns[0], b)
    requires Earlier(env, repoRoot, fs, patterns[1..], a, b)
    ensures Earlier(env, repoRoot, fs, patterns, a, b)
  {
    FirstContributorShift(env, repoRoot, fs, patterns, a);
    FirstContributorShift(env, repoRoot, fs, patterns, b);
    var ka := FirstContributor(env, repoRoot, fs, patterns[1..], a);
    assert patterns[1..][ka] == patterns[ka + 1];
  }

  /** A successful pattern loop appends paths in resolution order. */
  lemma {:induction false} CollectKeepsOrder(env: Environment, repoRoot: Path, fs: FileSystem, patterns: seq<String>, acc: seq<Path>)
    requires NoDuplicates(acc)
    requires Collect(env, repoRoot, fs, patterns, acc).Success?
    ensures var r := Collect(env, repoRoot, fs, patterns, acc).value;
            forall i, j :: |acc| <= i < j < |r| ==> Earlier(env, repoRoot, fs, patterns, r[i], r[j])
    decreases |patterns|
  {
    if |patterns| > 0 {
      var ps := PatternFiles(env, repoRoot, fs, patterns[0]).value;
      var acc1 := AddAll(acc, ps);
      var tail := patterns[1..];
      var r := Collect(env, repoRoot, fs, tail, acc1).value;
      assert Collect(env, repoRoot, fs, patterns, acc).value == r;
      CollectKeepsOrder(env, repoRoot, fs, tail, acc1);
      CollectIsUnion(env, repoRoot, fs, tail, acc1);
      AddAllKeepsOrder(acc, ps);
      forall i | |acc| <= i < |acc1| ensures r[i] == acc1[i] && Contributes(env, repoRoot, fs, patterns[0], r[i]) {
        assert r[i] == r[..|acc1|][i];
      }
      forall j | |acc1| <= j < |r|
        ensures !Contributes(env, repoRoot, fs, patterns[0], r[j]) && Contributed(env, repoRoot, fs, tail, r[j])
      {
        forall m | 0 <= m < |acc1| ensures acc1[m] != r[j] {
          assert acc1[m] == r[..|acc1|][m] == r[m];
        }
        var k :| 0 <= k < |tail| && r[j] in PatternFiles(env, repoRoot, fs, tail[k]).value;
        assert Contributes(env, repoRoot, fs, tail[k], r[j]);
      }
      forall i, j | |acc| <= i < j < |r| ensures Earlier(env, repoRoot, fs, patterns, r[i], r[j]) {
        if j < |acc1| {
          assert Contributed(env, repoRoot, fs, patterns, r[i]) && Contributed(env, repoRoot, fs, patterns, r[j]);
        } else if i < |acc1| {
          assert Contributed(env, repoRoot, fs, patterns, r[i]);
          ContributedFromTail(env, repoRoot, fs, patterns, r[j]);
        } else {
          EarlierShift(env, repoRoot, fs, patterns, r[i], r[j]);
        }
      }
    }
  }

  /** A path the tail contributes is contributed by the whole list. */
  lemma ContributedFromTail(env: Environment, repoRoot: Path, fs: FileSystem, patterns: seq<String>, p: Path)
    requires |patterns| > 0 && Contributed(env, repoRoot, fs, patterns[1..], p)
    ensures Contributed(env, repoRoot, fs, patterns, p)
  {
    var k :| 0 <= k < |patterns[1..]| && Contributes(env, repoRoot, fs, patterns[1..][k], p);
    assert patterns[1..][k] == patterns[k + 1];
  }

  /** `findFiles` lists its files in resolution order: a file first reached by an earlier pattern
      comes first, and files first reached by the same pattern keep that pattern's order. */
  lemma FindFilesKeepsOrder(env: Environment, repoRoot: Path, fs: FileSystem, patterns: seq<String>)
    requires FindFiles(env, repoRoot, fs, patterns).Success?
    ensures var r := FindFiles(env, repoRoot, fs, patterns).value;
            forall i, j :: 0 <= i < j < |r| ==> Earlier(env, repoRoot, fs, patterns, r[i], r[j])
  {
    CollectKeepsOrder(env, repoRoot, fs, patterns, []);
  }
}

=== FILE: results.dfy ===
/** Failure-carrying wrappers used in place of JavaScript's null values and thrown errors. */
module Results {

  /** A value that may be absent. */
  datatype Option<+T> = None | Some(value: T)

  /** Either a computed value or the error that stopped the computation. */
  datatype Result<+T, +E> = Success(value: T) | Failure(error: E)
}

=== FILE: strings.dfy ===
/** The JavaScript string operations ExtractFiles relies on, over `seq<char>`. */
module Strings {

  type String = seq<char>

  /** `s.endsWith(suffix)`. */
  predicate EndsWith(s: String, suffix: String) {
    |suffix| <= |s| && s[|s| - |suffix|..] == suffix
  }

  /** `s.indexOf(c)` for a single character: the first position of `c`, or -1. */
  function IndexOf(s: String, c: char): (r: int)
    ensures r == -1 <==> c !in s
    ensures r != -1 ==> 0 <= r < |s| && s[r] == c && c !in s[..r]
  {
    if |s| == 0 then -1
    else if s[0] == c then 0
    else
      var k := IndexOf(s[1..], c);
      assert s == [s[0]] + s[1..];
      if k == -1 then -1
      else
        assert s[..k + 1] == [s[0]] + s[1..][..k];
        k + 1
  }

  /** The last position of `c` strictly before position `k`, or -1: the backward scan
      `for (i = k - 1; i > -1; i--) if (s.charAt(i) == c) ...`. */
  function LastIndexBefore(s: String, c: char, k: nat): (r: int)
    requires k <= |s|
    ensures r == -1 <==> c !in s[..k]
    ensures r != -1 ==> 0 <= r < k && s[r] == c && c !in s[r + 1..k]
    decreases k
  {
    if k == 0 then -1
    else if s[k - 1] == c then k - 1
    else
      assert s[..k] == s[..k - 1] + [s[k - 1]];
      var i := LastIndexBefore(s, c, k - 1);
      assert i != -1 ==> s[i + 1..k] == s[i + 1..k - 1] + [s[k - 1]];
      i
  }

  /** `s.lastIndexOf(c)` for a single character. */
  function LastIndexOf(s: String, c: char): (r: int)
    ensures r == -1 <==> c !in s
    ensures r != -1 ==> 0 <= r < |s| && s[r] == c && c !in s[r + 1..]
  {
    assert s[..|s|] == s;
    LastIndexBefore(s, c, |s|)
  }

  /** `toLowerCase` on one character; only the ASCII letters are folded. */
  function LowerChar(c: char): char {
    if 'A' <= c <= 'Z' then (c as int + 32) as char else c
  }

  /** `s.toLowerCase()`, folding ASCII letters only. */
  function ToLower(s: String): (r: String)
    ensures |r| == |s|
    ensures forall i :: 0 <= i < |s| ==> r[i] == LowerChar(s[i])
  {
    seq(|s|, i requires 0 <= i < |s| => LowerChar(s[i]))
  }

  /** A lower-cased string contains no upper-case ASCII letter. */
  lemma LowerHasNoUpper(s: String, i: nat)
    requires i < |s|
    ensures !('A' <= ToLower(s)[i] <= 'Z')
  {
  }

  /** Lower-casing twice is lower-casing once. */
  lemma LowerIdempotent(s: String)
    ensures ToLower(ToLower(s)) == ToLower(s)
  {
  }
}

=== FILE: tools.dfy ===
/** The external extraction programs and the argument lists ExtractFiles hands them. */
module Tools {
  import opened Strings
  import opened Paths
  import opened Results

  /** GNU tar, Info-ZIP unzip, 7-Zip. */
  datatype Tool = Tar | Unzip | SevenZip

  /** One synchronous run of a tool with its arguments. */
  datatype Invocation = Invocation(tool: Tool, args: seq<String>)

  /** The archive and the output directory, as each tool reads its own command line. */
  function Operands(inv: Invocation): Option<(Path, Path)> {
    var a := inv.args;
    match inv.tool
    case Tar =>
      if |a| == 4 && a[0] == "-xvf" && a[2] == "-C" then Some((a[1], a[3])) else None
    case Unzip =>
      if |a| == 3 && a[1] == "-d" then Some((a[0], a[2])) else None
    case SevenZip =>
      if |a| == 3 && a[0] == "x" && |a[1]| >= 2 && a[1][..2] == "-o" then Some((a[2], a[1][2..]))
      else None
  }

  /** `tarExtract`: tar extracts `file` (any compression it recognises) into `dest`. */
  function TarCall(file: Path, dest: Path): (r: Invocation)
    ensures r.tool == Tar
    ensures Operands(r) == Some((file, dest))
  {
    Invocation(Tar, ["-xvf", file, "-C", dest])
  }

  /** `unzipExtract`: unzip extracts `file` into `dest`. */
  function UnzipCall(file: Path, dest: Path): (r: Invocation)
    ensures r.tool == Unzip
    ensures Operands(r) == Some((file, dest))
  {
    Invocation(Unzip, [file, "-d", dest])
  }

  /** `sevenZipExtract`: 7z's extract verb with the output directory glued to `-o`. */
  function SevenZipCall(file: Path, dest: Path): (r: Invocation)
    ensures r.tool == SevenZip
    ensures Operands(r) == Some((file, dest))
  {
    var out := "-o" + dest;
    assert out[..2] == "-o" && out[2..] == dest;
    Invocation(SevenZip, ["x", out, file])
  }
}
